=== FILE: README.md ===
# Offline-first order data layer

A Dafny model of the order data layer of a mobile delivery-tracking app. The
layer has two parts:

- **The order repository.** One storage key, `@orders`, holds the whole order
  collection. Every mutation reads the collection, transforms it and writes all
  of it back. "Sync" is simulated locally: it marks a record as synced and
  stamps it with a mock server id `mock-<ms>`.
- **The order store.** An in-memory cache `{orders, loading, error}` of the
  repository's listing. It has three transitions:
  - `fetchOrders` replaces the cache with a fresh listing.
  - `createOrder` shows an optimistic placeholder first, writes the order
    durably, syncs it when online, and then reconciles the cache.
  - `syncPending` syncs every unsynced order, then re-fetches.

Every operation is a pure function of the storage medium, the cached state and
its environment. The environment is passed in explicitly: clock readings, one
connectivity flag per call, and the outcome of each storage write.

Modules:

- `OrderTypes` (`types.dfy`): the `Order` record, the draft a caller submits,
  and the "`serverId` present iff `isSynced`" invariant.
- `Listing` (`listing.dfy`): the newest-first order `getOrders` presents. `getOrders`
  sorts with a stable sort and the comparator
  `b.createdAt - a.createdAt`. This is modelled as a stable insertion sort.
- `OrderRepository` (`repository.dfy`): the storage medium
  `Missing | Corrupt | Valid(orders)` and the repository's six operations.
- `OrderStore` (`store.dfy`): the store state and its transitions.
  - Each transition returns every state it published with `set`, in order, so
    intermediate states are part of the model.
  - The final state is the last one published.
- `StoreProperties` (`store_props.dfy`): properties of whole store runs:
  - the online, offline and failed-sync paths of `createOrder`;
  - the optimistic placeholder being replaced;
  - a second `syncPending` doing nothing;
  - the server id each order gets from `syncPending`, and what a partly
    rejected `syncPending` leaves behind.

Modelling choices:

- **Ids.** An id is `Local(ms)` (`local_<ms>`) or `Temp(ms)` (`temp_<ms>`). A
  server id is `Mock(ms)`.
- **Time.** `createdAt` is a `nat` of milliseconds.
- **Failed writes.** A rejected `setItem` leaves the medium as it was, and the
  awaiting operation rejects with the error's message.
- **Read failures.** `Corrupt` stands for every stored value the read path
  cannot turn into an array of orders: malformed JSON, a non-array value, or a
  rejected read. `getOrders` reads all of them as `[]`.

Behaviour of the code worth knowing:

- **Storage order.** The collection is not kept in insertion order.
  - `createOrder` writes `[new, ...getOrders()]`. That is in listing order
    only when the clock is not behind any stored order's `createdAt`.
  - `syncSingleOrder` writes back the mapped listing, which is in listing
    order.
- **Sync guard.** `syncSingleOrder` has no guard of its own. It rewrites the
  listing even when the id is absent, which turns a `Missing` or `Corrupt`
  value into `Valid([])`. The "absent or already synced" guard lives in
  `syncAndGetUpdatedOrder`.
- **Sort order.** The sort is non-strict: equal timestamps are allowed and keep
  their input order.
- **Error after a failed create.** When the durable write of `createOrder`
  fails, the store publishes a state with `error` set. It then calls
  `fetchOrders`, which clears `error` before reading. So the settled state has
  `error == None`, and the write error is visible only in the intermediate
  state. `OrderStore.CreateOrder` states both facts.
- **Failed sync during create.** A rejected sync inside `createOrder` sets no
  error. The code falls back to `fetchOrders` silently.
- **Partly rejected sync sweep.** `syncPendingOrders` writes storage once per
  pending order and stops at the first rejected write. The writes before it
  stay in storage. The store's `syncPending` then sets `error` and skips
  `fetchOrders`, so the cache keeps its old orders. Example: cache and listing
  `[a, b]`, both unsynced, with the first write accepted at clock 10 and the
  second rejected. The cache settles on `[a, b]`, while storage holds `a`
  synced as `mock-10` and `b` unchanged. `StoreProperties.PartlyRejectedSyncPending`
  states this in general.
- **Server ids per sweep.** Each pending order is stamped `mock-<ms>` by the
  clock reading of its own `syncSingleOrder` call. Two syncs within one
  millisecond give two orders the same server id. The ids are distinct only
  when the clock readings differ.
- **Unreachable fetch failure.** `getOrders` never rejects, so the failure
  branch of the store's `fetchOrders` cannot be reached from the repository.
  `OrderStore.FetchOrders` takes the read's outcome as a parameter so that
  both branches are modelled. `OrderStore.Refresh` is the call the store
  actually makes.

## Model

| member | source | states |
|---|---|---|
| OrderTypes.FromDraft | src/repositories/OrderRepository.ts:29-35 | The built order carries every draft field unchanged, the given id, timestamp and offline flag, is unsynced and has no server id, so it satisfies "serverId iff synced" |
| OrderTypes.MarkSynced | src/repositories/OrderRepository.ts:74-78 | The updated record is the same record (id, draft fields, timestamp, offline flag), now synced with server id `mock-<stamp>`; it never loses `isSynced` and keeps the invariant |
| Listing.Insert | src/repositories/OrderRepository.ts:18 | Inserting into a newest-first listing adds exactly that order (multiset) and keeps the listing newest first |
| Listing.InsertWithStamp | src/repositories/OrderRepository.ts:18 | Inserting an order puts it ahead of every order with the same timestamp and leaves the orders of every other timestamp in their order |
| Listing.SortDesc | src/repositories/OrderRepository.ts:18 | The sorted listing is a permutation of the input (same multiset) in which each order's `createdAt` is at least that of every later order, and orders with equal `createdAt` keep their input order (the sort is stable) |
| Listing.SortDescOfSorted | src/repositories/OrderRepository.ts:18 | The sort changes nothing on a collection that is already newest first (ties keep their place) |
| Listing.SortDescIdempotent | src/repositories/OrderRepository.ts:18 | Sorting a sorted listing again gives the same listing |
| OrderRepository.GetOrders | src/repositories/OrderRepository.ts:14-23 | A stored collection is returned as a newest-first permutation of itself in which orders with equal timestamps keep their stored order; a missing key and an unreadable or corrupt value both give the empty sequence |
| OrderRepository.GetOrdersWellFormed | src/repositories/OrderRepository.ts:14-18 | Reading a well-formed medium yields only orders that satisfy "serverId iff synced" and carry repository ids |
| OrderRepository.GetOrdersOfListing | src/repositories/OrderRepository.ts:16-18 | Writing a newest-first listing and reading it back gives exactly that listing |
| OrderRepository.CreateOrder | src/repositories/OrderRepository.ts:25-41 | The returned order carries every draft field with `id = local_<now>`, `createdAt = now`, `isSynced = false`, no `serverId` and `createdWhileOffline = !online`. After the write, storage is that order followed by the previous listing, one longer with no prior record changed, or `[new]` on missing or corrupt storage. A rejected write leaves storage unchanged and rejects with its message. Well-formedness is preserved |
| OrderRepository.CreateOrderFreshId | src/repositories/OrderRepository.ts:31-38 | When the clock-derived id is not already stored and the listing's ids are unique, the written collection's ids are unique |
| OrderRepository.MarkAll | src/repositories/OrderRepository.ts:72-81 | The mapped listing has the same length; records with another id are untouched; every record with the target id becomes synced with server id `mock-<stamp>`; every record is a later version of its original |
| OrderRepository.MarkAllOnce | src/repositories/OrderRepository.ts:72-81 | When one record is the only carrier of its id, the `map` replaces exactly that record by its synced version and keeps every other record, counted as a multiset |
| OrderRepository.SyncSingleOrder | src/repositories/OrderRepository.ts:64-84 | A written sync leaves a listing equal to the previous listing with exactly the matching records marked, so the length is unchanged, nothing is un-synced, the target is synced and every record with another id is unchanged; a rejected write leaves storage unchanged; well-formedness is preserved |
| OrderRepository.Find | src/repositories/OrderRepository.ts:49 | Finding by id yields nothing exactly when no order has the id, and otherwise the first order in the listing that has it |
| OrderRepository.FindMarkAll | src/repositories/OrderRepository.ts:57-58 | Looking the id up after the sync finds the synced version of the order found before it |
| OrderRepository.SyncAndGetUpdatedOrder | src/repositories/OrderRepository.ts:47-62 | Storage is unchanged when the id is absent (result `None`, the `undefined` of `order!`), when the found order is already synced, or when offline. Otherwise a written sync marks the id and returns the found order synced with the new server id, and a rejected one changes nothing and rejects. Well-formedness is preserved |
| OrderRepository.SyncAgainIsNoOp | src/repositories/OrderRepository.ts:51 | Once a call has returned a synced order, a second call for the same id leaves storage unchanged and returns the same order, whatever its connectivity, clock or write outcome |
| OrderRepository.Unsynced | src/repositories/OrderRepository.ts:88 | The filter keeps exactly the orders of the listing that are not synced |
| OrderRepository.UnsyncedCount | src/repositories/OrderRepository.ts:88 | Each unsynced order is kept as many times as the listing holds it, and each synced order is dropped |
| OrderRepository.UnsyncedAppend | src/repositories/OrderRepository.ts:88 | The filter keeps listing order: filtering a concatenation is the concatenation of the filtered parts |
| OrderRepository.SyncEach | src/repositories/OrderRepository.ts:90-92 | The sequential loop resolves exactly when no write is rejected. Every listed record ends as a later version of itself, so the length and ids are unchanged and nothing is un-synced. On success every record whose id was pending is synced. Every record whose id is not pending is unchanged, server id included, even after a partial failure. Well-formedness is preserved |
| OrderRepository.SweepStamps | src/repositories/OrderRepository.ts:70-92 | With every write accepted and distinct pending ids, the record whose id is pending at position `k` ends as itself synced with server id `mock-<clock of the k-th sync>`, all its other fields unchanged |
| OrderRepository.SweepStopsAt | src/repositories/OrderRepository.ts:90-92 | When the `k`-th write is the first one rejected, the loop stops there: storage ends exactly as after syncing only the first `k` pending orders, so the earlier writes stay |
| OrderRepository.UnsyncedUniqueIds | src/repositories/OrderRepository.ts:88 | Filtering a listing with distinct ids gives pending orders with distinct ids |
| OrderRepository.SyncPendingOrders | src/repositories/OrderRepository.ts:86-93 | The sweep keeps the listing's length and ids position by position and never un-syncs a record. A record whose id no unsynced order carries is left exactly as it was. When no write is rejected, every order in storage is synced afterwards |
| OrderRepository.SyncPendingStamps | src/repositories/OrderRepository.ts:70-93 | Over a listing with distinct ids and with every write accepted, each record that was pending at position `k` of the filter ends synced with server id `mock-<clock of the k-th sync>`, its other fields unchanged |
| OrderRepository.SyncPendingDistinctServerIds | src/repositories/OrderRepository.ts:77-93 | Over a listing with distinct ids, with every write accepted and a clock reading that differs between syncs, any two records that were unsynced end with different server ids |
| OrderRepository.PartlyRejectedSweep | src/repositories/OrderRepository.ts:86-92 | When the `k`-th write is the first one rejected, the sweep rejects. Each record pending before position `k` is stored synced with server id `mock-<clock of its own sync>`. Every record whose id is not among the first `k` pending orders is unchanged |
| OrderRepository.SyncKeepsIdsUnique | src/repositories/OrderRepository.ts:86-93 | The sweep keeps unique ids unique |
| OrderRepository.FetchRemoteOrders | src/repositories/OrderRepository.ts:95-97 | The remote stub returns the empty sequence |
| OrderStore.Initial | src/stores/orderStore.ts:14-17 | The store starts with no orders, `loading = false` and `error = null` |
| OrderStore.FetchOrders | src/stores/orderStore.ts:19-27 | First publishes `loading = true`, `error = null`. When the read succeeds, `orders` becomes the listing with `loading = false` and no error. When it rejects, `error` is set, `loading = false` and `orders` keeps its previous value |
| OrderStore.Refresh | src/stores/orderStore.ts:19-23 | Fetching from the repository settles with `orders` equal to the listing of the medium, `loading = false` and no error |
| OrderStore.Shown | src/stores/orderStore.ts:34-42 | The optimistic state is the old cache with a `temp_` placeholder in front that carries the draft's fields, is unsynced and has `createdWhileOffline = !online`, with `loading` and `error` kept |
| OrderStore.Reconcile | src/stores/orderStore.ts:44-74 | After the optimistic state, every path settles with `orders` equal to the durable listing. A rejected create keeps storage, publishes `error` next and settles with `loading` released and `error` cleared. Well-formedness is preserved |
| OrderStore.CreateOrder | src/stores/orderStore.ts:29-75 | The first published state, before any write, is the old cache with a `temp_` placeholder in front: it carries the draft's fields, is unsynced and has `createdWhileOffline = !online`, with `loading` and `error` kept. Every path settles with `orders` equal to the durable listing. A rejected create leaves storage unchanged, shows its error in the next state and settles with `loading` and `error` cleared |
| OrderStore.SyncPending | src/stores/orderStore.ts:77-87 | Publishes `loading = true` first and always settles with `loading = false`. With every write accepted, `orders` is the durable listing, all of it synced, with the same length and ids as before and no error. With a rejected write, `error` is set and `orders` is the previous cache. Storage records only advance, and every record whose id no unsynced order carries is left exactly as it was, server id included. Storage ends as `syncPendingOrders` leaves it |
| StoreProperties.CreatedIsFound | src/repositories/OrderRepository.ts:37-49 | With a fresh id, the listing after the durable create holds the new order, one more than before, and finding its id returns exactly it |
| StoreProperties.CreatedIsOnly | src/repositories/OrderRepository.ts:37-38 | With a fresh id, the listing after the durable create is the old listing plus the new order (as multisets), and the new order is the only record with its id |
| StoreProperties.OnlineSettlesOnMarked | src/stores/orderStore.ts:48-61 | Online with both writes accepted and a fresh id, the settled state is the optimistic one with `orders` replaced by the durable listing in which the new order is marked synced |
| StoreProperties.OnlineCreateKeepsOrders | src/stores/orderStore.ts:48-61 | Online with both writes accepted and a fresh id, the settled cache is, as a multiset, exactly the old listing plus the new order synced with the server id stamped at the sync: no old order is lost, duplicated or changed |
| StoreProperties.OnlineCreateSettlesSynced | src/stores/orderStore.ts:48-62 | Online with both writes accepted and a fresh id, the settled cache holds the new order synced with the server id stamped at the sync and has one more entry than the old listing; `loading` and `error` are untouched |
| StoreProperties.OfflineCreateStaysLocal | src/stores/orderStore.ts:48-70 | Offline, no sync is attempted: storage is exactly the new order before the old listing, and the settled cache shows it unsynced, created offline and without a server id, with `loading` and `error` cleared |
| StoreProperties.RejectedSyncFallsBack | src/stores/orderStore.ts:63-70 | Online with a rejected sync write, the code falls back to `fetchOrders`: storage keeps the unsynced new order, and the settled cache shows it with `loading` released and no error |
| StoreProperties.PlaceholderIsReplaced | src/stores/orderStore.ts:42-74 | The placeholder is in the first published cache and in no settled cache, which holds only repository-made, well-formed records |
| StoreProperties.SyncPendingTwice | src/stores/orderStore.ts:77-86 | After a successful `syncPending` nothing is pending, so a second one writes nothing and settles on the same cache |
| StoreProperties.SyncPendingShowsStamps | src/stores/orderStore.ts:77-81 | After a successful `syncPending` over distinct ids, the settled cache shows each order that was pending at position `k` synced with server id `mock-<clock of the k-th sync>`, its other fields unchanged |
| StoreProperties.PartlyRejectedSyncPending | src/stores/orderStore.ts:77-87 | When the `k`-th write is the first one rejected, the settled cache is the one the call started with and `error` is set. Storage keeps each sync made before the rejection, with its own server id, and leaves every other record unchanged. The cache then lags behind storage |

## Left out

- Screens, components, navigation, theme, haptics and animation. They only render the store.
- The background-location wrappers. They only call OS location and task APIs.
- AsyncStorage, JSON text and parsing. The medium is the abstract value
  `Missing | Corrupt | Valid(orders)`. ISO timestamp strings and their parsing
  are replaced by millisecond `nat`s, so unparseable dates (`NaN` in the
  comparator) are not modelled.
- Concurrency. Each store transition runs to completion. The race between
  `createOrder` and a connectivity-triggered `syncPending` is not modelled,
  and neither is the lost update it can cause.
- The `setTimeout` waits. They have no effect on state.
- Console logging. It has no effect on state.
- Clock readings. `local_<ms>` and the ISO `createdAt` of one create come from
  two clock reads in `createOrder`; the model uses one reading for both. The same
  goes for the placeholder's `temp_` id and timestamp. `syncSingleOrder` reads
  the clock once per matching record inside its `map`; `MarkAll` stamps every
  matching record with one reading.
- Connectivity. `navigator.onLine` is read separately by the store and the
  repository; the model uses one flag per call. The
  `typeof navigator` fallback to `true` is folded into that flag.
- Id uniqueness. Ids come from the clock and the code does not make them
  unique. Wherever uniqueness matters, a fresh id is taken as a precondition
  rather than proved.
- Extra properties in the draft object. Any property beyond the draft's
  declared fields would be spread into the order; that is not modelled.
- OrderStore.SyncPending: on a rejected write, it states that `error` is set
  but not which message it carries.

=== FILE: listing.dfy ===
/**
  The presentation order of the order collection: newest first by `createdAt`.
  The collection is sorted with a comparator `b.createdAt - a.createdAt` by a
  stable sort, which is modelled here as a stable insertion sort.
*/
module Listing {
  import opened OrderTypes

  /** Each order is at least as recent as every order after it. */
  predicate SortedDesc(xs: seq<Order>) {
    forall i, j :: 0 <= i < j < |xs| ==> xs[i].createdAt >= xs[j].createdAt
  }

  /** The orders stamped `t`, in their order in `xs`: the relative order a
      stable sort must keep. */
  function WithStamp(xs: seq<Order>, t: nat): seq<Order>
    decreases |xs|
  {
    if xs == [] then []
    else (if xs[0].createdAt == t then [xs[0]] else []) + WithStamp(xs[1..], t)
  }

  /** Taking the orders stamped `t` from a collection with a given head. */
  lemma WithStampCons(h: Order, xs: seq<Order>, t: nat)
    ensures WithStamp([h] + xs, t) == (if h.createdAt == t then [h] else []) + WithStamp(xs, t)
  {
    assert ([h] + xs)[0] == h && ([h] + xs)[1..] == xs;
  }

  /** Inserts `o` in front of the first order that is not newer than it, so that
      among equal timestamps `o` keeps its place ahead of later input. */
  function Insert(o: Order, ys: seq<Order>): (r: seq<Order>)
    requires SortedDesc(ys)
    ensures forall x :: x in r ==> x == o || x in ys
    ensures multiset(r) == multiset(ys) + multiset{o}
    ensures SortedDesc(r)
    decreases |ys|
  {
    if ys == [] || ys[0].createdAt <= o.createdAt then
      [o] + ys
    else
      var rest := Insert(o, ys[1..]);
      assert ys == [ys[0]] + ys[1..];
      InsertBelowHead(ys, o, rest);
      [ys[0]] + rest
  }

  /** Inserting `o` puts it ahead of every order with its timestamp and leaves
      the orders of every other timestamp as they were. */
  lemma {:induction false} InsertWithStamp(o: Order, ys: seq<Order>, t: nat)
    requires SortedDesc(ys)
    ensures WithStamp(Insert(o, ys), t) == if t == o.createdAt then [o] + WithStamp(ys, t) else WithStamp(ys, t)
    decreases |ys|
  {
    if ys == [] || ys[0].createdAt <= o.createdAt {
      WithStampCons(o, ys, t);
    } else {
      var rest := Insert(o, ys[1..]);
      assert Insert(o, ys) == [ys[0]] + rest;
      InsertWithStamp(o, ys[1..], t);
      WithStampCons(ys[0], rest, t);
      assert ys == [ys[0]] + ys[1..];
      WithStampCons(ys[0], ys[1..], t);
    }
  }

  /** Putting the head of a sorted collection back in front of anything drawn
      from its tail and from an older order keeps the result sorted. */
  lemma InsertBelowHead(ys: seq<Order>, o: Order, rest: seq<Order>)
    requires SortedDesc(ys) && ys != [] && o.createdAt < ys[0].createdAt
    requires SortedDesc(rest)
    requires forall x :: x in rest ==> x == o || x in ys[1..]
    ensures SortedDesc([ys[0]] + rest)
  {
    var r := [ys[0]] + rest;
    forall i, j | 0 <= i < j < |r| ensures r[i].createdAt >= r[j].createdAt {
      if i == 0 {
        assert r[j] == rest[j - 1];
        assert r[j] in rest;
      } else {
        assert r[i] == rest[i - 1] && r[j] == rest[j - 1];
      }
    }
  }

  /** The stable sort, newest first: a permutation, sorted, and orders with
      equal timestamps keep their input order. */
  function SortDesc(xs: seq<Order>): (r: seq<Order>)
    ensures multiset(r) == multiset(xs)
    ensures SortedDesc(r)
    ensures forall t :: WithStamp(r, t) == WithStamp(xs, t)
    decreases |xs|
  {
    if xs == [] then []
    else
      assert xs == [xs[0]] + xs[1..];
      var sorted := SortDesc(xs[1..]);
      forall t ensures WithStamp(Insert(xs[0], sorted), t) == WithStamp(xs, t) {
        InsertWithStamp(xs[0], sorted, t);
        WithStampCons(xs[0], xs[1..], t);
      }
      Insert(xs[0], sorted)
  }

  /** Sorting a collection that is already newest first changes nothing. */
  lemma {:induction false} SortDescOfSorted(xs: seq<Order>)
    requires SortedDesc(xs)
    ensures SortDesc(xs) == xs
    decreases |xs|
  {
    if xs != [] {
      SortDescOfSorted(xs[1..]);
      assert xs == [xs[0]] + xs[1..];
    }
  }

  /** Sorting twice is sorting once. */
  lemma SortDescIdempotent(xs: seq<Order>)
    ensures SortDesc(SortDesc(xs)) == SortDesc(xs)
  {
    SortDescOfSorted(SortDesc(xs));
  }

  /** Two collections whose timestamps agree position by position are sorted together. */
  lemma SortedDescPointwise(xs: seq<Order>, ys: seq<Order>)
    requires |xs| == |ys|
    requires forall i :: 0 <= i < |xs| ==> xs[i].createdAt == ys[i].createdAt
    requires SortedDesc(xs)
    ensures SortedDesc(ys)
  {
  }
}

=== FILE: repository.dfy ===
/**
  The on-device order repository. One storage key, `@orders`, holds the whole
  collection; every mutation reads the collection, transforms it and writes the
  whole of it back. Sync is simulated: it only rewrites the stored records.

  The clock, the connectivity flag and the outcome of every storage write are
  parameters of the operations.
*/
module OrderRepository {
  import opened OrderTypes
  import opened Listing

  /** What the `@orders` key holds. `Corrupt` stands for every value the read
      path cannot turn into an array of orders: malformed text, a value that is
      not an array, or a rejected read. An empty string reads like `Missing`. */
  datatype Medium = Missing | Corrupt | Valid(orders: seq<Order>)

  /** The outcome of one `setItem`: the whole value is written, or nothing is. */
  datatype Outcome = Written | Failed(message: string)

  /** The medium after an operation together with what the operation resolved to. */
  datatype Effect<+T> = Effect(storage: Medium, result: Result<T>)

  /** One awaited sync of the sweep: the clock when it stamps its server id, and
      the outcome of its write. */
  datatype Attempt = Attempt(at: nat, write: Outcome)

  /** Every order keeps "serverId present iff synced" and carries an id made
      by the repository. */
  predicate ListingWellFormed(xs: seq<Order>) {
    forall o :: o in xs ==> SyncConsistent(o) && o.id.Local?
  }

  /** What every write of the repository leaves behind. */
  predicate WellFormed(m: Medium) {
    m.Valid? ==> ListingWellFormed(m.orders)
  }

  /** `getOrders`: the stored collection, newest first; `[]` when the key is
      missing or its value cannot be read. */
  function GetOrders(m: Medium): (r: seq<Order>)
    ensures m.Valid? ==> multiset(r) == multiset(m.orders)
    ensures m.Valid? ==> forall t :: WithStamp(r, t) == WithStamp(m.orders, t)
    ensures !m.Valid? ==> r == []
    ensures SortedDesc(r)
  {
    match m
    case Valid(xs) => SortDesc(xs)
    case _ => []
  }

  /** The listing of a well-formed medium holds only well-formed orders. */
  lemma GetOrdersWellFormed(m: Medium)
    ensures WellFormed(m) ==> ListingWellFormed(GetOrders(m))
  {
    if m.Valid? && WellFormed(m) {
      forall o | o in GetOrders(m) ensures SyncConsistent(o) && o.id.Local? {
        assert o in multiset(GetOrders(m));
      }
    }
  }

  /** Writing back a listing and reading it again gives that listing. */
  lemma GetOrdersOfListing(xs: seq<Order>)
    requires SortedDesc(xs)
    ensures GetOrders(Valid(xs)) == xs
  {
    SortDescOfSorted(xs);
  }

  /** The order `createOrder` builds from a draft at time `now`. */
  function NewOrder(d: Draft, now: nat, online: bool): Order {
    FromDraft(d, Local(now), !online, now)
  }

  /** `createOrder`: builds an unsynced order and writes it in front of the
      current listing. A failed write rejects and leaves the medium as it was. */
  function CreateOrder(m: Medium, d: Draft, now: nat, online: bool, w: Outcome): (r: Effect<Order>)
    ensures w.Written? <==> r.result.Ok?
    ensures r.result.Ok? ==>
      var o := r.result.value;
      && DraftOf(o) == d && o.id == Local(now)
      && !o.isSynced && o.serverId == None
      && o.createdWhileOffline == !online && o.createdAt == now
    ensures r.result.Ok? ==>
      && r.storage.Valid?
      && |r.storage.orders| == |GetOrders(m)| + 1
      && r.storage.orders[0] == r.result.value
      && r.storage.orders[1..] == GetOrders(m)
    ensures r.result.Ok? && !m.Valid? ==> r.storage.orders == [r.result.value]
    ensures r.result.Err? ==> r.storage == m && r.result.message == w.message
    ensures WellFormed(m) ==> WellFormed(r.storage)
  {
    var o := NewOrder(d, now, online);
    GetOrdersWellFormed(m);
    if w.Written? then Effect(Valid([o] + GetOrders(m)), Ok(o)) else Effect(m, Err(w.message))
  }

  /** The `map` inside `syncSingleOrder`: every record with the id is marked
      synced with server id `mock-<stamp>`; every other record is kept. */
  function MarkAll(xs: seq<Order>, id: OrderId, stamp: nat): (r: seq<Order>)
    ensures |r| == |xs|
    ensures forall i :: 0 <= i < |xs| && xs[i].id != id ==> r[i] == xs[i]
    ensures forall i :: 0 <= i < |xs| && xs[i].id == id ==>
      r[i].isSynced && r[i].serverId == Some(Mock(stamp))
    ensures forall i :: 0 <= i < |xs| ==> Advances(xs[i], r[i])
  {
    seq(|xs|, i requires 0 <= i < |xs| => if xs[i].id == id then MarkSynced(xs[i], stamp) else xs[i])
  }

  /** Marking works record by record from the front of the listing. */
  lemma MarkAllCons(xs: seq<Order>, id: OrderId, stamp: nat)
    requires xs != []
    ensures MarkAll(xs, id, stamp)
         == [if xs[0].id == id then MarkSynced(xs[0], stamp) else xs[0]] + MarkAll(xs[1..], id, stamp)
  {
    var r := MarkAll(xs, id, stamp);
    var head := if xs[0].id == id then MarkSynced(xs[0], stamp) else xs[0];
    assert forall i :: 1 <= i < |xs| ==> r[i] == MarkAll(xs[1..], id, stamp)[i - 1];
    assert r == [head] + MarkAll(xs[1..], id, stamp);
  }

  /** Marking an id no record carries changes nothing. */
  lemma MarkAllAbsent(xs: seq<Order>, id: OrderId, stamp: nat)
    requires forall i :: 0 <= i < |xs| ==> xs[i].id != id
    ensures MarkAll(xs, id, stamp) == xs
  {
  }

  /** When `o` is the one record of the listing with its id, marking that id
      replaces exactly `o` by its synced version and keeps every other record. */
  lemma {:induction false} MarkAllOnce(xs: seq<Order>, o: Order, stamp: nat)
    requires forall i :: 0 <= i < |xs| && xs[i].id == o.id ==> xs[i] == o
    requires multiset(xs)[o] == 1
    ensures multiset(MarkAll(xs, o.id, stamp)) == multiset(xs) - multiset{o} + multiset{MarkSynced(o, stamp)}
    decreases |xs|
  {
    assert xs == [xs[0]] + xs[1..];
    if xs[0] == o {
      MarkOnceAtHead(xs, o, stamp);
    } else {
      var tail := xs[1..];
      forall i | 0 <= i < |tail| && tail[i].id == o.id ensures tail[i] == o {
        assert tail[i] == xs[i + 1];
      }
      MarkAllOnce(tail, o, stamp);
      MarkOnceInTail(xs, o, stamp);
    }
  }

  /** The head case of `MarkAllOnce`: `o` leads and no later record has its id. */
  lemma MarkOnceAtHead(xs: seq<Order>, o: Order, stamp: nat)
    requires xs != [] && xs[0] == o
    requires forall i :: 0 <= i < |xs| && xs[i].id == o.id ==> xs[i] == o
    requires multiset(xs)[o] == 1
    ensures multiset(MarkAll(xs, o.id, stamp)) == multiset(xs) - multiset{o} + multiset{MarkSynced(o, stamp)}
  {
    var tail := xs[1..];
    assert xs == [o] + tail;
    assert multiset(tail)[o] == 0;
    forall i | 0 <= i < |tail| ensures tail[i].id != o.id {
      assert tail[i] == xs[i + 1] && tail[i] in multiset(tail);
      assert tail[i] != o;
    }
    MarkAllAbsent(tail, o.id, stamp);
    MarkAllCons(xs, o.id, stamp);
  }

  /** The tail case of `MarkAllOnce`: a leading record with another id is kept. */
  lemma MarkOnceInTail(xs: seq<Order>, o: Order, stamp: nat)
    requires xs != [] && xs[0].id != o.id
    requires o in multiset(xs[1..])
    requires multiset(MarkAll(xs[1..], o.id, stamp))
          == multiset(xs[1..]) - multiset{o} + multiset{MarkSynced(o, stamp)}
    ensures multiset(MarkAll(xs, o.id, stamp)) == multiset(xs) - multiset{o} + multiset{MarkSynced(o, stamp)}
  {
    MarkAllCons(xs, o.id, stamp);
    assert multiset(MarkAll(xs, o.id, stamp)) == multiset{xs[0]} + multiset(MarkAll(xs[1..], o.id, stamp));
    assert xs == [xs[0]] + xs[1..];
    assert multiset(xs) == multiset{xs[0]} + multiset(xs[1..]);
    ReplaceUnderHead(multiset{xs[0]}, multiset(xs[1..]), o, MarkSynced(o, stamp));
  }

  /** Replacing one occurrence of `o` commutes with adding other records. */
  lemma ReplaceUnderHead(h: multiset<Order>, a: multiset<Order>, o: Order, o': Order)
    requires o in a
    ensures h + (a - multiset{o} + multiset{o'}) == h + a - multiset{o} + multiset{o'}
  {
  }

  /** Marking keeps every timestamp in place, so a listing stays newest first. */
  lemma MarkAllSorted(xs: seq<Order>, id: OrderId, stamp: nat)
    requires SortedDesc(xs)
    ensures SortedDesc(MarkAll(xs, id, stamp))
  {
    SortedDescPointwise(xs, MarkAll(xs, id, stamp));
  }

  /** Marking keeps a listing well formed. */
  lemma MarkAllWellFormed(xs: seq<Order>, id: OrderId, stamp: nat)
    requires ListingWellFormed(xs)
    ensures ListingWellFormed(MarkAll(xs, id, stamp))
  {
    var ys := MarkAll(xs, id, stamp);
    forall o | o in ys ensures SyncConsistent(o) && o.id.Local? {
      var i :| 0 <= i < |ys| && ys[i] == o;
      assert xs[i] in xs;
    }
  }

  /** What rewriting the marked listing does to the medium. */
  lemma MarkedListing(m: Medium, id: OrderId, stamp: nat)
    ensures GetOrders(Valid(MarkAll(GetOrders(m), id, stamp))) == MarkAll(GetOrders(m), id, stamp)
    ensures WellFormed(m) ==> ListingWellFormed(MarkAll(GetOrders(m), id, stamp))
  {
    MarkAllSorted(GetOrders(m), id, stamp);
    GetOrdersOfListing(MarkAll(GetOrders(m), id, stamp));
    GetOrdersWellFormed(m);
    if WellFormed(m) {
      MarkAllWellFormed(GetOrders(m), id, stamp);
    }
  }

  /** `ys` is a later version of `xs`, record by record. */
  predicate AdvancesAll(xs: seq<Order>, ys: seq<Order>) {
    |ys| == |xs| && forall i :: 0 <= i < |xs| ==> Advances(xs[i], ys[i])
  }

  /** Every record of `xs` whose id is in `ids` is synced in `ys`. */
  predicate SyncedWhere(xs: seq<Order>, ys: seq<Order>, ids: seq<OrderId>)
    requires |ys| == |xs|
  {
    forall i :: 0 <= i < |xs| && xs[i].id in ids ==> ys[i].isSynced
  }

  /** Every record of `xs` whose id is not in `ids` is unchanged in `ys`. */
  predicate KeptWhere(xs: seq<Order>, ys: seq<Order>, ids: seq<OrderId>)
    requires |ys| == |xs|
  {
    forall i :: 0 <= i < |xs| && xs[i].id !in ids ==> ys[i] == xs[i]
  }

  /** `syncSingleOrder`: rewrites the listing with the matching records synced.
      There is no guard: an absent id still rewrites the listing unchanged. */
  function SyncSingleOrder(m: Medium, id: OrderId, stamp: nat, w: Outcome): (r: Effect<()>)
    ensures w.Written? ==> r.result.Ok? && GetOrders(r.storage) == MarkAll(GetOrders(m), id, stamp)
    ensures w.Failed? ==> r.storage == m && r.result == Err(w.message)
    ensures AdvancesAll(GetOrders(m), GetOrders(r.storage))
    ensures r.result.Ok? ==> SyncedWhere(GetOrders(m), GetOrders(r.storage), [id])
    ensures KeptWhere(GetOrders(m), GetOrders(r.storage), [id])
    ensures WellFormed(m) ==> WellFormed(r.storage)
  {
    MarkedListing(m, id, stamp);
    if w.Written? then Effect(Valid(MarkAll(GetOrders(m), id, stamp)), Ok(())) else Effect(m, Err(w.message))
  }

  /** `Array.prototype.find` by id: the first order with the id, if any. */
  function Find(xs: seq<Order>, id: OrderId): (r: Option<Order>)
    ensures r.None? <==> forall o :: o in xs ==> o.id != id
    ensures r.Some? ==> exists k :: 0 <= k < |xs| && xs[k] == r.value && FirstWithId(xs, id, k)
  {
    if xs == [] then None
    else if xs[0].id == id then
      assert FirstWithId(xs, id, 0);
      Some(xs[0])
    else
      var r := Find(xs[1..], id);
      assert xs == [xs[0]] + xs[1..];
      if r.Some? then
        var k :| 0 <= k < |xs[1..]| && xs[1..][k] == r.value && FirstWithId(xs[1..], id, k);
        assert FirstWithId(xs, id, k + 1);
        r
      else r
  }

  /** Position `k` holds the first order with the id. */
  predicate FirstWithId(xs: seq<Order>, id: OrderId, k: nat) {
    k < |xs| && xs[k].id == id && forall j :: 0 <= j < k ==> xs[j].id != id
  }

  /** Finding an id after marking it finds the marked version of what was found before. */
  lemma {:induction false} FindMarkAll(xs: seq<Order>, id: OrderId, stamp: nat)
    ensures Find(MarkAll(xs, id, stamp), id) ==
      (if Find(xs, id).Some? then Some(MarkSynced(Find(xs, id).value, stamp)) else None)
    decreases |xs|
  {
    if xs != [] {
      var ys := MarkAll(xs, id, stamp);
      assert ys[1..] == MarkAll(xs[1..], id, stamp);
      if xs[0].id != id {
        FindMarkAll(xs[1..], id, stamp);
      }
    }
  }

  /** `syncAndGetUpdatedOrder`: looks the id up in the listing; when it is
      present, unsynced and the device is online, syncs it and returns the
      updated record; otherwise returns what it found without writing. */
  function SyncAndGetUpdatedOrder(m: Medium, id: OrderId, online: bool, stamp: nat, w: Outcome)
    : (r: Effect<Option<Order>>)
    ensures var found := Find(GetOrders(m), id);
      found.None? || found.value.isSynced || !online ==> r == Effect(m, Ok(found))
    ensures var found := Find(GetOrders(m), id);
      found.Some? && !found.value.isSynced && online ==>
        if w.Written? then
          && GetOrders(r.storage) == MarkAll(GetOrders(m), id, stamp)
          && r.result == Ok(Some(MarkSynced(found.value, stamp)))
        else r.storage == m && r.result == Err(w.message)
    ensures WellFormed(m) ==> WellFormed(r.storage)
  {
    var found := Find(GetOrders(m), id);
    if found.None? || found.value.isSynced then Effect(m, Ok(found))
    else if online then
      var s := SyncSingleOrder(m, id, stamp, w);
      if s.result.Err? then Effect(s.storage, Err(s.result.message))
      else
        FindMarkAll(GetOrders(m), id, stamp);
        Effect(s.storage, Ok(Find(GetOrders(s.storage), id)))
    else Effect(m, Ok(found))
  }

  /** Once a call has returned a synced order, calling again for the same id
      writes nothing and returns the same order, whatever the connectivity,
      clock and write outcome of the second call. */
  lemma SyncAgainIsNoOp(m: Medium, id: OrderId, online: bool, stamp: nat, w: Outcome,
                        online': bool, stamp': nat, w': Outcome)
    ensures var r := SyncAndGetUpdatedOrder(m, id, online, stamp, w);
      r.result.Ok? && r.result.value.Some? && r.result.value.value.isSynced ==>
        SyncAndGetUpdatedOrder(r.storage, id, online', stamp', w') == r
  {
    var found := Find(GetOrders(m), id);
    if found.Some? && !found.value.isSynced && online {
      FindMarkAll(GetOrders(m), id, stamp);
    }
  }

  /** With a fresh id, creating keeps the ids of the written collection unique. */
  lemma CreateOrderFreshId(m: Medium, d: Draft, now: nat, online: bool, w: Outcome)
    requires UniqueIds(GetOrders(m))
    requires forall o :: o in GetOrders(m) ==> o.id != Local(now)
    requires w.Written?
    ensures UniqueIds(CreateOrder(m, d, now, online, w).storage.orders)
  {
    var xs := CreateOrder(m, d, now, online, w).storage.orders;
    forall i, j | 0 <= i < j < |xs| ensures xs[i].id != xs[j].id {
      if i == 0 {
        assert xs[j] == GetOrders(m)[j - 1];
        assert xs[j] in GetOrders(m);
      } else {
        assert xs[i] == GetOrders(m)[i - 1] && xs[j] == GetOrders(m)[j - 1];
      }
    }
  }

  /** Syncing keeps the ids of the listing, so it keeps them unique. */
  lemma SyncKeepsIdsUnique(m: Medium, attempts: seq<Attempt>)
    requires |attempts| == |Unsynced(GetOrders(m))|
    requires UniqueIds(GetOrders(m))
    ensures UniqueIds(GetOrders(SyncPendingOrders(m, attempts).storage))
  {
    var ys := GetOrders(SyncPendingOrders(m, attempts).storage);
    forall i, j | 0 <= i < j < |ys| ensures ys[i].id != ys[j].id {
      assert Ids(ys)[i] == Ids(GetOrders(m))[i] && Ids(ys)[j] == Ids(GetOrders(m))[j];
    }
  }

  /** The `filter` of the sweep: the unsynced orders, in listing order. */
  function Unsynced(xs: seq<Order>): (r: seq<Order>)
    ensures forall o :: o in r <==> o in xs && !o.isSynced
    ensures |r| <= |xs|
  {
    if xs == [] then []
    else
      assert xs == [xs[0]] + xs[1..];
      (if xs[0].isSynced then [] else [xs[0]]) + Unsynced(xs[1..])
  }

  /** The filter keeps every unsynced order as often as the listing holds it
      and drops every synced one. */
  lemma {:induction false} UnsyncedCount(xs: seq<Order>, o: Order)
    ensures multiset(Unsynced(xs))[o] == if o.isSynced then 0 else multiset(xs)[o]
    decreases |xs|
  {
    if xs != [] {
      assert xs == [xs[0]] + xs[1..];
      UnsyncedCount(xs[1..], o);
    }
  }

  /** The filter keeps listing order: filtering a concatenation filters each part. */
  lemma {:induction false} UnsyncedAppend(xs: seq<Order>, ys: seq<Order>)
    ensures Unsynced(xs + ys) == Unsynced(xs) + Unsynced(ys)
    decreases |xs|
  {
    if xs == [] {
      assert xs + ys == ys;
    } else {
      assert (xs + ys)[0] == xs[0] && (xs + ys)[1..] == xs[1..] + ys;
      UnsyncedAppend(xs[1..], ys);
    }
  }

  /** One step of the sweep followed by the rest of it. */
  lemma SweepStep(before: seq<Order>, middle: seq<Order>, after: seq<Order>, pending: seq<Order>, ok: bool)
    requires pending != []
    requires AdvancesAll(before, middle) && AdvancesAll(middle, after)
    requires SyncedWhere(before, middle, [pending[0].id])
    requires ok ==> SyncedWhere(middle, after, Ids(pending[1..]))
    requires KeptWhere(before, middle, [pending[0].id])
    requires KeptWhere(middle, after, Ids(pending[1..]))
    ensures AdvancesAll(before, after)
    ensures ok ==> SyncedWhere(before, after, Ids(pending))
    ensures KeptWhere(before, after, Ids(pending))
  {
    forall i | 0 <= i < |before| ensures Advances(before[i], after[i]) {
      AdvancesTransitive(before[i], middle[i], after[i]);
    }
    assert Ids(pending) == [pending[0].id] + Ids(pending[1..]);
    forall i | 0 <= i < |before| && before[i].id !in Ids(pending) ensures after[i] == before[i] {
      assert middle[i].id == before[i].id;
    }
  }

  /** A sweep stopped after its first write has touched only the first pending id. */
  lemma SweepStops(before: seq<Order>, after: seq<Order>, pending: seq<Order>)
    requires pending != [] && |after| == |before|
    requires KeptWhere(before, after, [pending[0].id])
    ensures KeptWhere(before, after, Ids(pending))
  {
    assert Ids(pending)[0] == pending[0].id;
  }

  /** No write of the sweep is rejected. */
  predicate AllWritten(attempts: seq<Attempt>) {
    forall k :: 0 <= k < |attempts| ==> attempts[k].write.Written?
  }

  /** Every write is accepted exactly when the first is and all the later ones are. */
  lemma AllWrittenCons(attempts: seq<Attempt>)
    requires attempts != []
    ensures AllWritten(attempts) <==> attempts[0].write.Written? && AllWritten(attempts[1..])
  {
    if attempts[0].write.Written? && AllWritten(attempts[1..]) {
      forall k | 0 <= k < |attempts| ensures attempts[k].write.Written? {
        if k > 0 { assert attempts[k] == attempts[1..][k - 1]; }
      }
    }
  }

  /** The `for` loop of the sweep: one `syncSingleOrder` per pending order, in
      order, stopping at the first rejected write. */
  function SyncEach(m: Medium, pending: seq<Order>, attempts: seq<Attempt>): (r: Effect<()>)
    requires |attempts| == |pending|
    ensures r.result.Ok? <==> AllWritten(attempts)
    ensures AdvancesAll(GetOrders(m), GetOrders(r.storage))
    ensures r.result.Ok? ==> SyncedWhere(GetOrders(m), GetOrders(r.storage), Ids(pending))
    ensures KeptWhere(GetOrders(m), GetOrders(r.storage), Ids(pending))
    ensures WellFormed(m) ==> WellFormed(r.storage)
    decreases |pending|
  {
    if pending == [] then Effect(m, Ok(()))
    else
      var s := SyncSingleOrder(m, pending[0].id, attempts[0].at, attempts[0].write);
      AllWrittenCons(attempts);
      if s.result.Err? then
        SweepStops(GetOrders(m), GetOrders(s.storage), pending);
        s
      else
        var r := SyncEach(s.storage, pending[1..], attempts[1..]);
        SweepStep(GetOrders(m), GetOrders(s.storage), GetOrders(r.storage), pending, r.result.Ok?);
        r
  }

  /** With every write accepted and distinct pending ids, each record whose id
      is pending at position `k` ends synced with the server id stamped by the
      `k`-th sync, and with nothing else changed. */
  lemma {:induction false} SweepStamps(m: Medium, pending: seq<Order>, attempts: seq<Attempt>)
    requires |attempts| == |pending|
    requires AllWritten(attempts)
    requires UniqueIds(pending)
    ensures var before := GetOrders(m);
      var after := GetOrders(SyncEach(m, pending, attempts).storage);
      forall i, k :: 0 <= i < |before| && 0 <= k < |pending| && before[i].id == pending[k].id ==>
        after[i] == MarkSynced(before[i], attempts[k].at)
    decreases |pending|
  {
    if pending != [] {
      var s := SyncSingleOrder(m, pending[0].id, attempts[0].at, attempts[0].write);
      AllWrittenCons(attempts);
      UniqueIdsTail(pending);
      SweepStamps(s.storage, pending[1..], attempts[1..]);
      SweepHead(m, pending, attempts);
      StampAll(GetOrders(m), GetOrders(s.storage), GetOrders(SyncEach(s.storage, pending[1..], attempts[1..]).storage),
               pending, attempts);
    }
  }

  /** A collection with distinct ids keeps them distinct without its head. */
  lemma UniqueIdsTail(xs: seq<Order>)
    requires xs != [] && UniqueIds(xs)
    ensures UniqueIds(xs[1..])
  {
    forall i, j | 0 <= i < j < |xs[1..]| ensures xs[1..][i].id != xs[1..][j].id {
      assert xs[1..][i] == xs[i + 1] && xs[1..][j] == xs[j + 1];
    }
  }

  /** The stamp argument for every record, on the listings before the sweep,
      after its first sync, and after the rest of it. */
  lemma StampAll(before: seq<Order>, middle: seq<Order>, after: seq<Order>,
                 pending: seq<Order>, attempts: seq<Attempt>)
    requires |attempts| == |pending| && pending != []
    requires UniqueIds(pending)
    requires middle == MarkAll(before, pending[0].id, attempts[0].at)
    requires |after| == |middle| && KeptWhere(middle, after, Ids(pending[1..]))
    requires forall i', k' :: 0 <= i' < |middle| && 0 <= k' < |pending[1..]| && middle[i'].id == pending[1..][k'].id ==>
      after[i'] == MarkSynced(middle[i'], attempts[1..][k'].at)
    ensures forall i, k :: 0 <= i < |before| && 0 <= k < |pending| && before[i].id == pending[k].id ==>
      after[i] == MarkSynced(before[i], attempts[k].at)
  {
    forall i, k | 0 <= i < |before| && 0 <= k < |pending| && before[i].id == pending[k].id
      ensures after[i] == MarkSynced(before[i], attempts[k].at)
    {
      StampStep(before, middle, after, pending, attempts, i, k);
    }
  }

  /** A sweep whose first write is accepted is that sync followed by the sweep
      of the rest. */
  lemma SweepHead(m: Medium, pending: seq<Order>, attempts: seq<Attempt>)
    requires |attempts| == |pending| && pending != []
    requires attempts[0].write.Written?
    ensures var s := SyncSingleOrder(m, pending[0].id, attempts[0].at, attempts[0].write);
      && GetOrders(s.storage) == MarkAll(GetOrders(m), pending[0].id, attempts[0].at)
      && SyncEach(m, pending, attempts) == SyncEach(s.storage, pending[1..], attempts[1..])
  {
  }

  /** The sweep of the first `k` pending orders, when the first write is
      accepted, is that sync followed by the sweep of the next `k - 1`. */
  lemma PrefixHead(m: Medium, pending: seq<Order>, attempts: seq<Attempt>, k: nat)
    requires |attempts| == |pending| && 0 < k <= |pending|
    requires attempts[0].write.Written?
    ensures var s := SyncSingleOrder(m, pending[0].id, attempts[0].at, attempts[0].write);
      SyncEach(m, pending[..k], attempts[..k]) == SyncEach(s.storage, pending[1..][..k - 1], attempts[1..][..k - 1])
  {
    assert pending[..k][0] == pending[0] && attempts[..k][0] == attempts[0];
    assert pending[..k][1..] == pending[1..][..k - 1];
    assert attempts[..k][1..] == attempts[1..][..k - 1];
    SweepHead(m, pending[..k], attempts[..k]);
  }

  /** One step of the stamp argument, on the listings before the sweep, after
      its first sync, and after the rest of it. */
  lemma StampStep(before: seq<Order>, middle: seq<Order>, after: seq<Order>,
                  pending: seq<Order>, attempts: seq<Attempt>, i: nat, k: nat)
    requires |attempts| == |pending| && k < |pending|
    requires UniqueIds(pending)
    requires middle == MarkAll(before, pending[0].id, attempts[0].at)
    requires |after| == |middle| && KeptWhere(middle, after, Ids(pending[1..]))
    requires forall i', k' :: 0 <= i' < |middle| && 0 <= k' < |pending[1..]| && middle[i'].id == pending[1..][k'].id ==>
      after[i'] == MarkSynced(middle[i'], attempts[1..][k'].at)
    requires i < |before| && before[i].id == pending[k].id
    ensures after[i] == MarkSynced(before[i], attempts[k].at)
  {
    if k == 0 {
      assert middle[i] == MarkSynced(before[i], attempts[0].at);
      forall j | 0 <= j < |pending[1..]| ensures Ids(pending[1..])[j] != middle[i].id {
        assert pending[1..][j] == pending[j + 1];
      }
      assert middle[i].id !in Ids(pending[1..]);
    } else {
      assert middle[i] == before[i];
      assert pending[1..][k - 1] == pending[k] && attempts[1..][k - 1] == attempts[k];
    }
  }

  /** The `k`-th write is the first one rejected. */
  predicate FirstRejected(attempts: seq<Attempt>, k: nat) {
    && k < |attempts| && attempts[k].write.Failed?
    && forall j :: 0 <= j < k ==> attempts[j].write.Written?
  }

  /** A sweep whose first rejected write is the `k`-th leaves storage exactly as
      the sweep of the first `k` pending orders alone: the earlier writes stay. */
  lemma {:induction false} SweepStopsAt(m: Medium, pending: seq<Order>, attempts: seq<Attempt>, k: nat)
    requires |attempts| == |pending|
    requires FirstRejected(attempts, k)
    ensures SyncEach(m, pending, attempts).storage == SyncEach(m, pending[..k], attempts[..k]).storage
    decreases k, 1
  {
    if k == 0 {
      SweepRejectedFirst(m, pending, attempts);
      assert pending[..0] == [] && attempts[..0] == [];
    } else {
      SweepStopsLater(m, pending, attempts, k);
    }
  }

  /** `SweepStopsAt` when the rejected write is not the first: the rest of the
      sweep stops at the same place. */
  lemma {:induction false} SweepStopsLater(m: Medium, pending: seq<Order>, attempts: seq<Attempt>, k: nat)
    requires |attempts| == |pending| && 0 < k
    requires FirstRejected(attempts, k)
    ensures SyncEach(m, pending, attempts).storage == SyncEach(m, pending[..k], attempts[..k]).storage
    decreases k, 0
  {
    AttemptsTail(attempts, k);
    var m1 := SyncSingleOrder(m, pending[0].id, attempts[0].at, attempts[0].write).storage;
    SweepStopsStep(m, m1, pending, attempts, k);
    SweepStopsAt(m1, pending[1..], attempts[1..], k - 1);
  }

  /** Dropping the first attempt moves the first rejection one place forward. */
  lemma AttemptsTail(attempts: seq<Attempt>, k: nat)
    requires 0 < k && FirstRejected(attempts, k)
    ensures attempts[0].write.Written? && |attempts[1..]| == |attempts| - 1
    ensures FirstRejected(attempts[1..], k - 1)
  {
    assert attempts[1..][k - 1] == attempts[k];
    forall j | 0 <= j < k - 1 ensures attempts[1..][j].write.Written? {
      assert attempts[1..][j] == attempts[j + 1];
    }
  }

  /** A sweep whose first write is rejected leaves storage as it found it. */
  lemma SweepRejectedFirst(m: Medium, pending: seq<Order>, attempts: seq<Attempt>)
    requires |attempts| == |pending| && pending != []
    requires attempts[0].write.Failed?
    ensures SyncEach(m, pending, attempts).storage == m
    ensures SyncEach(m, pending, attempts).result.Err?
  {
  }

  /** The inductive step of `SweepStopsAt`: an accepted first write is shared
      by the whole sweep and by the sweep of its prefix. */
  lemma SweepStopsStep(m: Medium, m1: Medium, pending: seq<Order>, attempts: seq<Attempt>, k: nat)
    requires |attempts| == |pending| && 0 < k < |pending|
    requires attempts[0].write.Written?
    requires m1 == SyncSingleOrder(m, pending[0].id, attempts[0].at, attempts[0].write).storage
    ensures SyncEach(m, pending, attempts) == SyncEach(m1, pending[1..], attempts[1..])
    ensures SyncEach(m, pending[..k], attempts[..k]) == SyncEach(m1, pending[1..][..k - 1], attempts[1..][..k - 1])
  {
    SweepHead(m, pending, attempts);
    PrefixHead(m, pending, attempts, k);
  }

  /** An order of the listing that is not synced is pending in the sweep. */
  lemma UnsyncedArePending(xs: seq<Order>, ys: seq<Order>)
    requires |ys| == |xs|
    requires AdvancesAll(xs, ys)
    ensures SyncedWhere(xs, ys, Ids(Unsynced(xs))) ==> forall o :: o in ys ==> o.isSynced
  {
    var pending := Unsynced(xs);
    forall o | o in ys && SyncedWhere(xs, ys, Ids(pending)) ensures o.isSynced {
      var i :| 0 <= i < |ys| && ys[i] == o;
      if !xs[i].isSynced {
        assert xs[i] in pending;
        var k :| 0 <= k < |pending| && pending[k] == xs[i];
        assert Ids(pending)[k] == xs[i].id;
      }
    }
  }

  /** Later versions of the records carry the same ids, position by position. */
  lemma AdvancesKeepsIds(xs: seq<Order>, ys: seq<Order>)
    requires AdvancesAll(xs, ys)
    ensures Ids(ys) == Ids(xs)
  {
    assert forall i :: 0 <= i < |xs| ==> Ids(ys)[i] == Ids(xs)[i];
  }

  /** `syncPendingOrders`: syncs every order that is unsynced in the listing,
      one after another. `attempts` supplies the clock and write outcome of each. */
  function SyncPendingOrders(m: Medium, attempts: seq<Attempt>): (r: Effect<()>)
    requires |attempts| == |Unsynced(GetOrders(m))|
    ensures r.result.Ok? <==> AllWritten(attempts)
    ensures |GetOrders(r.storage)| == |GetOrders(m)|
    ensures Ids(GetOrders(r.storage)) == Ids(GetOrders(m))
    ensures AdvancesAll(GetOrders(m), GetOrders(r.storage))
    ensures r.result.Ok? ==> forall o :: o in GetOrders(r.storage) ==> o.isSynced
    ensures KeptWhere(GetOrders(m), GetOrders(r.storage), Ids(Unsynced(GetOrders(m))))
    ensures WellFormed(m) ==> WellFormed(r.storage)
  {
    var r := SyncEach(m, Unsynced(GetOrders(m)), attempts);
    UnsyncedArePending(GetOrders(m), GetOrders(r.storage));
    AdvancesKeepsIds(GetOrders(m), GetOrders(r.storage));
    r
  }

  /** Filtering keeps ids distinct. */
  lemma {:induction false} UnsyncedUniqueIds(xs: seq<Order>)
    requires UniqueIds(xs)
    ensures UniqueIds(Unsynced(xs))
    decreases |xs|
  {
    if xs != [] {
      UniqueIdsTail(xs);
      UnsyncedUniqueIds(xs[1..]);
      var rest := Unsynced(xs[1..]);
      assert Unsynced(xs) == (if xs[0].isSynced then [] else [xs[0]]) + rest;
      if !xs[0].isSynced {
        HeadIdNotInTail(xs);
        UniqueIdsCons(xs[0], rest);
      }
    }
  }

  /** In a collection with distinct ids, no later record shares the head's id. */
  lemma HeadIdNotInTail(xs: seq<Order>)
    requires xs != [] && UniqueIds(xs)
    ensures forall o :: o in xs[1..] ==> o.id != xs[0].id
  {
    forall o | o in xs[1..] ensures o.id != xs[0].id {
      var q :| 0 <= q < |xs[1..]| && xs[1..][q] == o;
      assert xs[q + 1] == o;
    }
  }

  /** A record whose id is new to a collection with distinct ids keeps them
      distinct in front of it. */
  lemma UniqueIdsCons(x: Order, rest: seq<Order>)
    requires UniqueIds(rest)
    requires forall o :: o in rest ==> o.id != x.id
    ensures UniqueIds([x] + rest)
  {
    var r := [x] + rest;
    forall i, j | 0 <= i < j < |r| ensures r[i].id != r[j].id {
      assert r[j] == rest[j - 1];
      if i > 0 {
        assert r[i] == rest[i - 1];
      }
    }
  }

  /** The first `k` attempts of a sweep that rejects none of them. */
  lemma AllWrittenPrefix(attempts: seq<Attempt>, k: nat)
    requires k <= |attempts|
    requires forall j :: 0 <= j < k ==> attempts[j].write.Written?
    ensures AllWritten(attempts[..k])
  {
    assert forall j :: 0 <= j < k ==> attempts[..k][j] == attempts[j];
  }

  /** With distinct ids in the listing and every write accepted, the order at
      position `k` of the pending filter is stamped by the `k`-th sync: its
      server id is `mock-<attempts[k].at>`. */
  lemma SyncPendingStamps(m: Medium, attempts: seq<Attempt>)
    requires |attempts| == |Unsynced(GetOrders(m))|
    requires AllWritten(attempts)
    requires UniqueIds(GetOrders(m))
    ensures var before := GetOrders(m);
      var pending := Unsynced(before);
      var after := GetOrders(SyncPendingOrders(m, attempts).storage);
      forall i, k :: 0 <= i < |before| && 0 <= k < |pending| && before[i].id == pending[k].id ==>
        after[i] == MarkSynced(before[i], attempts[k].at)
  {
    var before := GetOrders(m);
    SyncPendingIsSweep(m, attempts);
    UnsyncedUniqueIds(before);
    SweepStamps(m, Unsynced(before), attempts);
  }

  /** `syncPendingOrders` is the sweep over the pending filter of the listing. */
  lemma SyncPendingIsSweep(m: Medium, attempts: seq<Attempt>)
    requires |attempts| == |Unsynced(GetOrders(m))|
    ensures SyncPendingOrders(m, attempts) == SyncEach(m, Unsynced(GetOrders(m)), attempts)
  {
  }

  /** Clock readings that differ from sync to sync give the pending orders
      server ids that differ from each other. */
  lemma SyncPendingDistinctServerIds(m: Medium, attempts: seq<Attempt>)
    requires |attempts| == |Unsynced(GetOrders(m))|
    requires AllWritten(attempts)
    requires UniqueIds(GetOrders(m))
    requires forall j, k :: 0 <= j < k < |attempts| ==> attempts[j].at != attempts[k].at
    ensures var before := GetOrders(m);
      var after := GetOrders(SyncPendingOrders(m, attempts).storage);
      forall i, j :: 0 <= i < j < |before| && !before[i].isSynced && !before[j].isSynced ==>
        after[i].serverId != after[j].serverId
  {
    var before := GetOrders(m);
    SyncPendingStamps(m, attempts);
    DistinctStamps(before, GetOrders(SyncPendingOrders(m, attempts).storage), Unsynced(before), attempts);
  }

  /** Records with distinct ids, each stamped by the clock reading of its
      place in `pending`, carry distinct server ids when the readings differ. */
  lemma DistinctStamps(before: seq<Order>, after: seq<Order>, pending: seq<Order>, attempts: seq<Attempt>)
    requires |attempts| == |pending|
    requires UniqueIds(before)
    requires forall o :: o in pending <==> o in before && !o.isSynced
    requires forall i, k :: 0 <= i < |before| && 0 <= k < |pending| && before[i].id == pending[k].id ==>
      i < |after| && after[i] == MarkSynced(before[i], attempts[k].at)
    requires forall j, k :: 0 <= j < k < |attempts| ==> attempts[j].at != attempts[k].at
    ensures forall i, j :: 0 <= i < j < |before| && !before[i].isSynced && !before[j].isSynced ==>
      after[i].serverId != after[j].serverId
  {
    forall i, j | 0 <= i < j < |before| && !before[i].isSynced && !before[j].isSynced
      ensures after[i].serverId != after[j].serverId
    {
      assert before[i] in pending && before[j] in pending;
      var ki :| 0 <= ki < |pending| && pending[ki] == before[i];
      var kj :| 0 <= kj < |pending| && pending[kj] == before[j];
      assert before[i].id != before[j].id;
      assert after[i] == MarkSynced(before[i], attempts[ki].at);
      assert after[j] == MarkSynced(before[j], attempts[kj].at);
    }
  }

  /** A sweep whose first rejected write is the `k`-th keeps the syncs before
      it: the records pending at positions below `k` carry their stamps, and
      every other record is as it was. */
  lemma PartlyRejectedSweep(m: Medium, attempts: seq<Attempt>, k: nat)
    requires |attempts| == |Unsynced(GetOrders(m))|
    requires FirstRejected(attempts, k)
    requires UniqueIds(GetOrders(m))
    ensures var before := GetOrders(m);
      var pending := Unsynced(before);
      var r := SyncPendingOrders(m, attempts);
      var after := GetOrders(r.storage);
      && r.result.Err?
      && (forall i, j :: 0 <= i < |before| && 0 <= j < k && before[i].id == pending[j].id ==>
            after[i] == MarkSynced(before[i], attempts[j].at))
      && KeptWhere(before, after, Ids(pending[..k]))
  {
    var before := GetOrders(m);
    var pending := Unsynced(before);
    SyncPendingIsSweep(m, attempts);
    SweepStopsAt(m, pending, attempts, k);
    UnsyncedUniqueIds(before);
    SweepPrefix(m, pending, attempts, k);
  }

  /** The sweep of the first `k` pending orders, all accepted, stamps each of
      their records and leaves the others alone. */
  lemma SweepPrefix(m: Medium, pending: seq<Order>, attempts: seq<Attempt>, k: nat)
    requires |attempts| == |pending| && k <= |pending|
    requires forall j :: 0 <= j < k ==> attempts[j].write.Written?
    requires UniqueIds(pending)
    ensures var before := GetOrders(m);
      var after := GetOrders(SyncEach(m, pending[..k], attempts[..k]).storage);
      && |after| == |before|
      && (forall i, j :: 0 <= i < |before| && 0 <= j < k && before[i].id == pending[j].id ==>
            after[i] == MarkSynced(before[i], attempts[j].at))
      && KeptWhere(before, after, Ids(pending[..k]))
  {
    assert UniqueIds(pending[..k]) by {
      assert forall j :: 0 <= j < k ==> pending[..k][j] == pending[j];
    }
    AllWrittenPrefix(attempts, k);
    SweepStamps(m, pending[..k], attempts[..k]);
    assert forall j :: 0 <= j < k ==> pending[..k][j] == pending[j] && attempts[..k][j] == attempts[j];
  }

  /** `fetchRemoteOrders`: there is no backend, so nothing comes back. */
  function FetchRemoteOrders(): (r: seq<Order>)
    ensures r == []
  {
    []
  }
}

=== FILE: store.dfy ===
/**
  The in-memory order store: a cached copy `{orders, loading, error}` of the
  repository's listing, with three transitions that each run to completion.
  Every `set` the store makes is published to its subscribers, so a transition
  yields the sequence of states it published; its final state is the last one.
*/
module OrderStore {
  import opened OrderTypes
  import opened Listing
  import opened OrderRepository

  datatype State = State(orders: seq<Order>, loading: bool, error: Option<string>)

  /** A store transition run to completion: the medium afterwards and every state
      published on the way, in order. */
  datatype Run = Run(storage: Medium, published: seq<State>)

  /** What one store-level `createOrder` call observes from its environment:
      one connectivity snapshot, the clock at the optimistic update, at the
      durable create and at the sync, and the outcome of the two writes. */
  datatype CreateEnv = CreateEnv(
    online: bool,
    optimisticAt: nat,
    createdAt: nat,
    syncedAt: nat,
    createWrite: Outcome,
    syncWrite: Outcome)

  /** The state the store starts with. */
  function Initial(): (s: State)
    ensures s.orders == [] && !s.loading && s.error == None
  {
    State([], false, None)
  }

  /** The state a transition leaves behind. */
  function Last(states: seq<State>): State
    requires states != []
  {
    states[|states| - 1]
  }

  /** `fetchOrders`, given what the awaited read resolved or rejected with. */
  function FetchOrders(s: State, read: Result<seq<Order>>): (p: seq<State>)
    ensures |p| == 2
    ensures p[0].loading && p[0].error == None && p[0].orders == s.orders
    ensures !p[1].loading
    ensures read.Ok? ==> p[1].orders == read.value && p[1].error == None
    ensures read.Err? ==> p[1].orders == s.orders && p[1].error == Some(read.message)
  {
    var started := s.(loading := true, error := None);
    match read
    case Ok(orders) => [started, started.(orders := orders, loading := false)]
    case Err(message) => [started, started.(error := Some(message), loading := false)]
  }

  /** `fetchOrders` against the repository, whose read never rejects. */
  function Refresh(s: State, m: Medium): (p: seq<State>)
    ensures |p| == 2
    ensures Last(p).orders == GetOrders(m)
    ensures !Last(p).loading && Last(p).error == None
  {
    FetchOrders(s, Ok(GetOrders(m)))
  }

  /** The placeholder shown before anything is written: `temp_<ms>` id, unsynced. */
  function Optimistic(d: Draft, env: CreateEnv): Order {
    FromDraft(d, Temp(env.optimisticAt), !env.online, env.optimisticAt)
  }

  /** The first state `createOrder` publishes, before anything is written: the
      cache with the placeholder in front, `loading` and `error` as they were. */
  function Shown(s: State, d: Draft, env: CreateEnv): (p: State)
    ensures |p.orders| == |s.orders| + 1 && p.orders[1..] == s.orders
    ensures p.orders[0].id == Temp(env.optimisticAt) && DraftOf(p.orders[0]) == d
    ensures !p.orders[0].isSynced && p.orders[0].createdWhileOffline == !env.online
    ensures p.loading == s.loading && p.error == s.error
  {
    s.(orders := [Optimistic(d, env)] + s.orders)
  }

  /** What `createOrder` publishes, starting with the optimistic state `shown`,
      once the repository's create has resolved or rejected: on a rejected
      create it sets `error` and re-fetches; online it syncs the new order and
      replaces the cache with a fresh listing, re-fetching if the sync rejects;
      offline it re-fetches. */
  function Reconcile(shown: State, created: Effect<Order>, env: CreateEnv): (r: Run)
    ensures |r.published| >= 2 && r.published[0] == shown
    ensures Last(r.published).orders == GetOrders(r.storage)
    ensures created.result.Err? ==>
      && r.storage == created.storage
      && r.published[1].error == Some(created.result.message)
      && !Last(r.published).loading && Last(r.published).error == None
    ensures WellFormed(created.storage) ==> WellFormed(r.storage)
  {
    if created.result.Err? then
      var failed := shown.(error := Some(created.result.message));
      var fetched := Refresh(failed, created.storage);
      Run(created.storage, [shown, failed, fetched[0], fetched[1]])
    else if env.online then
      var synced := SyncAndGetUpdatedOrder(created.storage, created.result.value.id, env.online,
                                           env.syncedAt, env.syncWrite);
      if synced.result.Err? then
        var fetched := Refresh(shown, synced.storage);
        Run(synced.storage, [shown, fetched[0], fetched[1]])
      else
        Run(synced.storage, [shown, shown.(orders := GetOrders(synced.storage))])
    else
      var fetched := Refresh(shown, created.storage);
      Run(created.storage, [shown, fetched[0], fetched[1]])
  }

  /** `createOrder`: publishes the optimistic placeholder in front of the cache
      before anything is written, creates the order in the repository, then
      reconciles the cache with the durable listing. */
  function CreateOrder(s: State, m: Medium, d: Draft, env: CreateEnv): (r: Run)
    ensures |r.published| >= 2
    ensures r.published[0] == Shown(s, d, env)
    ensures Last(r.published).orders == GetOrders(r.storage)
    ensures env.createWrite.Failed? ==>
      && r.storage == m
      && r.published[1].error == Some(env.createWrite.message)
      && !Last(r.published).loading && Last(r.published).error == None
    ensures WellFormed(m) ==> WellFormed(r.storage)
  {
    Reconcile(Shown(s, d, env), OrderRepository.CreateOrder(m, d, env.createdAt, env.online, env.createWrite), env)
  }

  /** `syncPending`: raises `loading`, runs the sweep, re-fetches on success or
      records the rejection, and releases `loading` on every path. */
  function SyncPending(s: State, m: Medium, attempts: seq<Attempt>): (r: Run)
    requires |attempts| == |Unsynced(GetOrders(m))|
    ensures |r.published| >= 2
    ensures r.published[0] == s.(loading := true)
    ensures !Last(r.published).loading
    ensures AllWritten(attempts) ==>
      && Last(r.published).orders == GetOrders(r.storage)
      && Last(r.published).error == None
      && |Last(r.published).orders| == |GetOrders(m)|
      && Ids(Last(r.published).orders) == Ids(GetOrders(m))
      && forall o :: o in Last(r.published).orders ==> o.isSynced
    ensures !AllWritten(attempts) ==>
      && Last(r.published).orders == s.orders
      && Last(r.published).error.Some?
    ensures AdvancesAll(GetOrders(m), GetOrders(r.storage))
    ensures KeptWhere(GetOrders(m), GetOrders(r.storage), Ids(Unsynced(GetOrders(m))))
    ensures r.storage == SyncPendingOrders(m, attempts).storage
    ensures WellFormed(m) ==> WellFormed(r.storage)
  {
    var started := s.(loading := true);
    var sweep := SyncPendingOrders(m, attempts);
    if sweep.result.Err? then
      var failed := started.(error := Some(sweep.result.message));
      Run(sweep.storage, [started, failed, failed.(loading := false)])
    else
      var fetched := Refresh(started, sweep.storage);
      Run(sweep.storage, [started] + fetched + [Last(fetched).(loading := false)])
  }
}

=== FILE: store_props.dfy ===
/**
  What the store's transitions guarantee once they settle, stated over whole
  runs: the online, offline and failed-sync paths of `createOrder`, the
  disappearance of the optimistic placeholder, and a second `syncPending`.
*/
module StoreProperties {
  import opened OrderTypes
  import opened Listing
  import opened OrderRepository
  import opened OrderStore

  /** No stored order already carries the id the create is about to use. */
  predicate FreshId(m: Medium, now: nat) {
    forall o :: o in GetOrders(m) ==> o.id != Local(now)
  }

  /** The listing right after the durable create holds the new order, and
      looking its id up finds exactly that order. */
  lemma CreatedIsFound(m: Medium, d: Draft, now: nat, online: bool)
    requires FreshId(m, now)
    ensures var created := OrderRepository.CreateOrder(m, d, now, online, Written);
      && NewOrder(d, now, online) in GetOrders(created.storage)
      && Find(GetOrders(created.storage), Local(now)) == Some(NewOrder(d, now, online))
      && |GetOrders(created.storage)| == |GetOrders(m)| + 1
  {
    var created := OrderRepository.CreateOrder(m, d, now, online, Written);
    var o := NewOrder(d, now, online);
    var xs := created.storage.orders;
    var ys := GetOrders(created.storage);
    assert xs == [o] + GetOrders(m);
    assert o in multiset(xs);
    assert o in ys;
    var found := Find(ys, Local(now));
    assert found.Some?;
    assert found.value in multiset(xs);
    assert |ys| == |multiset(ys)| == |multiset(xs)| == |xs|;
  }

  /** With a fresh id, the listing after the durable create is the old listing
      plus the new order, which is the one record carrying its id. */
  lemma CreatedIsOnly(m: Medium, d: Draft, now: nat, online: bool)
    requires FreshId(m, now)
    ensures var listed := GetOrders(OrderRepository.CreateOrder(m, d, now, online, Written).storage);
      && multiset(listed) == multiset(GetOrders(m)) + multiset{NewOrder(d, now, online)}
      && multiset(listed)[NewOrder(d, now, online)] == 1
      && forall i :: 0 <= i < |listed| && listed[i].id == Local(now) ==> listed[i] == NewOrder(d, now, online)
  {
    var o := NewOrder(d, now, online);
    var created := OrderRepository.CreateOrder(m, d, now, online, Written);
    var listed := GetOrders(created.storage);
    assert created.storage.orders == [o] + GetOrders(m);
    assert multiset(listed) == multiset(GetOrders(m)) + multiset{o};
    assert o !in GetOrders(m);
    assert multiset(GetOrders(m))[o] == 0;
    forall i | 0 <= i < |listed| && listed[i].id == Local(now) ensures listed[i] == o {
      assert listed[i] in multiset(listed);
      assert listed[i] !in GetOrders(m);
    }
  }

  /** Online with the sync write accepted, reconciling an unsynced new order
      settles on the listing with that order marked synced. */
  lemma ReconcileSynced(shown: State, created: Effect<Order>, env: CreateEnv)
    ensures && env.online && env.syncWrite.Written? && created.result.Ok?
            && Find(GetOrders(created.storage), created.result.value.id) == Some(created.result.value)
            && !created.result.value.isSynced
            ==>
            Reconcile(shown, created, env).published
              == [shown, shown.(orders := MarkAll(GetOrders(created.storage), created.result.value.id, env.syncedAt))]
  {
  }

  /** Online with both writes accepted and a fresh id, the settled state is the
      optimistic one with the durable listing, the new order marked synced. */
  lemma OnlineSettlesOnMarked(s: State, m: Medium, d: Draft, env: CreateEnv)
    requires env.online && env.createWrite.Written? && env.syncWrite.Written?
    requires FreshId(m, env.createdAt)
    ensures Last(OrderStore.CreateOrder(s, m, d, env).published)
         == Shown(s, d, env).(orders := MarkAll(GetOrders(OrderRepository.CreateOrder(m, d, env.createdAt, true, Written).storage),
                                                Local(env.createdAt), env.syncedAt))
  {
    var created := OrderRepository.CreateOrder(m, d, env.createdAt, env.online, env.createWrite);
    CreatedIsFound(m, d, env.createdAt, true);
    ReconcileSynced(Shown(s, d, env), created, env);
  }

  /** Online, with both writes accepted and a fresh id, the settled cache is the
      old listing plus the new order synced with the server id stamped at the
      sync: no old order is lost, duplicated or changed. */
  lemma OnlineCreateKeepsOrders(s: State, m: Medium, d: Draft, env: CreateEnv)
    requires env.online && env.createWrite.Written? && env.syncWrite.Written?
    requires FreshId(m, env.createdAt)
    ensures var final := Last(OrderStore.CreateOrder(s, m, d, env).published);
      multiset(final.orders)
        == multiset(GetOrders(m)) + multiset{MarkSynced(NewOrder(d, env.createdAt, true), env.syncedAt)}
  {
    var o := NewOrder(d, env.createdAt, true);
    var listed := GetOrders(OrderRepository.CreateOrder(m, d, env.createdAt, true, Written).storage);
    OnlineSettlesOnMarked(s, m, d, env);
    CreatedIsOnly(m, d, env.createdAt, true);
    MarkAllOnce(listed, o, env.syncedAt);
  }

  /** Online, with both writes accepted and a fresh id, the settled cache holds
      the new order synced with the server id stamped at the sync, has one
      entry more than the old listing, and `loading` and `error` are as they
      were before the call. */
  lemma OnlineCreateSettlesSynced(s: State, m: Medium, d: Draft, env: CreateEnv)
    requires env.online && env.createWrite.Written? && env.syncWrite.Written?
    requires FreshId(m, env.createdAt)
    ensures var final := Last(OrderStore.CreateOrder(s, m, d, env).published);
      && MarkSynced(NewOrder(d, env.createdAt, true), env.syncedAt) in final.orders
      && |final.orders| == |GetOrders(m)| + 1
      && final.loading == s.loading && final.error == s.error
  {
    var final := Last(OrderStore.CreateOrder(s, m, d, env).published);
    OnlineSettlesOnMarked(s, m, d, env);
    OnlineCreateKeepsOrders(s, m, d, env);
    assert MarkSynced(NewOrder(d, env.createdAt, true), env.syncedAt) in multiset(final.orders);
    assert |final.orders| == |multiset(final.orders)| == |multiset(GetOrders(m))| + 1;
  }

  /** Offline no sync is attempted: the medium is exactly what the durable
      create wrote, and the settled cache holds the new order unsynced, marked
      as created offline, without a server id, with `loading` and `error` cleared. */
  lemma OfflineCreateStaysLocal(s: State, m: Medium, d: Draft, env: CreateEnv)
    requires !env.online && env.createWrite.Written?
    ensures var r := OrderStore.CreateOrder(s, m, d, env);
      && r.storage == Valid([NewOrder(d, env.createdAt, false)] + GetOrders(m))
      && NewOrder(d, env.createdAt, false) in Last(r.published).orders
      && !Last(r.published).loading && Last(r.published).error == None
    ensures var o := NewOrder(d, env.createdAt, false);
      !o.isSynced && o.createdWhileOffline && o.serverId == None
  {
    var o := NewOrder(d, env.createdAt, false);
    var r := OrderStore.CreateOrder(s, m, d, env);
    assert o in multiset(r.storage.orders);
  }

  /** Online with a fresh id, a rejected sync write falls back to `fetchOrders`:
      the medium keeps the unsynced new order and the settled cache shows it,
      with `loading` released and no error recorded. */
  lemma RejectedSyncFallsBack(s: State, m: Medium, d: Draft, env: CreateEnv)
    requires env.online && env.createWrite.Written? && env.syncWrite.Failed?
    requires FreshId(m, env.createdAt)
    ensures var r := OrderStore.CreateOrder(s, m, d, env);
      && r.storage == Valid([NewOrder(d, env.createdAt, true)] + GetOrders(m))
      && NewOrder(d, env.createdAt, true) in Last(r.published).orders
      && !Last(r.published).loading && Last(r.published).error == None
  {
    CreatedIsFound(m, d, env.createdAt, true);
  }

  /** Whatever path `createOrder` takes on a well-formed medium, the settled
      cache holds only repository records: the `temp_` placeholder is gone. */
  lemma PlaceholderIsReplaced(s: State, m: Medium, d: Draft, env: CreateEnv)
    requires WellFormed(m)
    ensures var r := OrderStore.CreateOrder(s, m, d, env);
      && Optimistic(d, env) in r.published[0].orders
      && Optimistic(d, env) !in Last(r.published).orders
      && forall o :: o in Last(r.published).orders ==> o.id.Local? && SyncConsistent(o)
  {
    var r := OrderStore.CreateOrder(s, m, d, env);
    GetOrdersWellFormed(r.storage);
  }

  /** A listing of synced orders leaves the sweep nothing to do. */
  lemma NothingPending(xs: seq<Order>)
    requires forall o :: o in xs ==> o.isSynced
    ensures Unsynced(xs) == []
  {
    if Unsynced(xs) != [] {
      assert Unsynced(xs)[0] in Unsynced(xs);
    }
  }

  /** After a successful `syncPending` nothing is pending, so a second one
      writes nothing and settles on the same cache. */
  lemma SyncPendingTwice(s: State, m: Medium, attempts: seq<Attempt>)
    requires |attempts| == |Unsynced(GetOrders(m))|
    requires AllWritten(attempts)
    ensures var first := SyncPending(s, m, attempts);
      && Unsynced(GetOrders(first.storage)) == []
      && var second := SyncPending(Last(first.published), first.storage, []);
      && second.storage == first.storage
      && Last(second.published).orders == Last(first.published).orders
  {
    var first := SyncPending(s, m, attempts);
    NothingPending(GetOrders(first.storage));
  }

  /** After a successful `syncPending` over distinct ids, the cache shows each
      pending order with the server id stamped by its own sync. */
  lemma SyncPendingShowsStamps(s: State, m: Medium, attempts: seq<Attempt>)
    requires |attempts| == |Unsynced(GetOrders(m))|
    requires AllWritten(attempts)
    requires UniqueIds(GetOrders(m))
    ensures var before := GetOrders(m);
      var pending := Unsynced(before);
      var shown := Last(SyncPending(s, m, attempts).published).orders;
      forall i, k :: 0 <= i < |before| && 0 <= k < |pending| && before[i].id == pending[k].id ==>
        shown[i] == MarkSynced(before[i], attempts[k].at)
  {
    SyncPendingStamps(m, attempts);
  }

  /** A `syncPending` whose `k`-th write is the first rejected settles on the
      cache it started with and an error, while storage keeps the syncs made
      before the rejection: the cache then lags behind storage. */
  lemma PartlyRejectedSyncPending(s: State, m: Medium, attempts: seq<Attempt>, k: nat)
    requires |attempts| == |Unsynced(GetOrders(m))|
    requires FirstRejected(attempts, k)
    requires UniqueIds(GetOrders(m))
    ensures var before := GetOrders(m);
      var pending := Unsynced(before);
      var r := SyncPending(s, m, attempts);
      var after := GetOrders(r.storage);
      && Last(r.published).orders == s.orders
      && Last(r.published).error.Some?
      && (forall i, j :: 0 <= i < |before| && 0 <= j < k && before[i].id == pending[j].id ==>
            after[i] == MarkSynced(before[i], attempts[j].at))
      && KeptWhere(before, after, Ids(pending[..k]))
  {
    PartlyRejectedSweep(m, attempts, k);
  }
}

=== FILE: types.dfy ===
/**
  The `Order` record shared by the repository and the store, with the small
  helpers every other module needs: optional values, failing results, the
  draft a caller submits, and the "serverId present iff synced" invariant.
*/
module OrderTypes {

  /** An optional value; `None` plays the part of `undefined`. */
  datatype Option<+T> = None | Some(value: T)

  /** The value of an awaited call that either resolves or rejects with an error message. */
  datatype Result<+T> = Ok(value: T) | Err(message: string)

  datatype Status = Pending | InTransit | Delivered

  /** Local identifiers are built from the clock: `local_<ms>` by the repository,
      `temp_<ms>` for the store's optimistic placeholder. */
  datatype OrderId = Local(stamp: nat) | Temp(stamp: nat)

  /** The simulated acknowledgement `mock-<ms>`. */
  datatype ServerId = Mock(stamp: nat)

  /** What a caller submits: the order without `id`, `isSynced`, `createdAt`,
      `createdWhileOffline` and `serverId`. */
  datatype Draft = Draft(
    recipientName: string,
    description: Option<string>,
    packageType: Option<string>,
    fromLocation: Option<string>,
    toLocation: Option<string>,
    status: Status)

  /** `createdAt` is the creation time in milliseconds. */
  datatype Order = Order(
    id: OrderId,
    recipientName: string,
    description: Option<string>,
    packageType: Option<string>,
    fromLocation: Option<string>,
    toLocation: Option<string>,
    isSynced: bool,
    createdWhileOffline: bool,
    serverId: Option<ServerId>,
    createdAt: nat,
    status: Status)

  /** The draft fields an order carries. */
  function DraftOf(o: Order): Draft {
    Draft(o.recipientName, o.description, o.packageType, o.fromLocation, o.toLocation, o.status)
  }

  /** The object literal `{...draft, id, isSynced: false, createdWhileOffline, createdAt}`. */
  function FromDraft(d: Draft, id: OrderId, createdWhileOffline: bool, createdAt: nat): (o: Order)
    ensures DraftOf(o) == d
    ensures o.id == id && o.createdAt == createdAt && o.createdWhileOffline == createdWhileOffline
    ensures !o.isSynced && o.serverId == None
    ensures SyncConsistent(o)
  {
    Order(id, d.recipientName, d.description, d.packageType, d.fromLocation, d.toLocation,
          false, createdWhileOffline, None, createdAt, d.status)
  }

  /** The object spread `{...o, isSynced: true, serverId: mock-<stamp>}`. */
  function MarkSynced(o: Order, stamp: nat): (o': Order)
    ensures SameRecord(o, o') && Advances(o, o')
    ensures o'.isSynced && o'.serverId == Some(Mock(stamp))
    ensures SyncConsistent(o')
  {
    o.(isSynced := true, serverId := Some(Mock(stamp)))
  }

  /** A server identifier is present exactly when the order is synced. */
  predicate SyncConsistent(o: Order) {
    o.serverId.Some? <==> o.isSynced
  }

  /** Two versions of one record: everything fixed at creation is equal. */
  predicate SameRecord(o: Order, o': Order) {
    && o'.id == o.id
    && DraftOf(o') == DraftOf(o)
    && o'.createdAt == o.createdAt
    && o'.createdWhileOffline == o.createdWhileOffline
  }

  /** `o'` is a later version of `o`: the same record, and a synced order stays synced. */
  predicate Advances(o: Order, o': Order) {
    SameRecord(o, o') && (o.isSynced ==> o'.isSynced)
  }

  /** The ids of a sequence of orders, position by position. */
  function Ids(xs: seq<Order>): (ids: seq<OrderId>)
    ensures |ids| == |xs|
    ensures forall i :: 0 <= i < |xs| ==> ids[i] == xs[i].id
  {
    seq(|xs|, i requires 0 <= i < |xs| => xs[i].id)
  }

  /** Every id occurs at most once. */
  predicate UniqueIds(xs: seq<Order>) {
    forall i, j :: 0 <= i < j < |xs| ==> xs[i].id != xs[j].id
  }

  /** Advancing is a preorder on versions of one record. */
  lemma AdvancesTransitive(a: Order, b: Order, c: Order)
    requires Advances(a, b) && Advances(b, c)
    ensures Advances(a, c)
  {
  }
}
